=== FILE: README.md ===
# bright — a Dafny model of the brightness engine

`bright` is a Linux laptop brightness control with a single 30-step scale
(levels 0 to 29). The scale is cut into three bands of ten levels:

- **Dark gamma (0–9):** the backlight is at raw value 0, the lowest
  setting, at step 0. The screen is dimmed through `xrandr --brightness`, from 0.1 up to 0.91.
- **Hardware (10–19):** gamma is reset to 1. The backlight follows a
  ten-step exponential curve, written to the sysfs file `brightness` of
  every backlight device found.
- **Bright gamma (20–29):** the backlight is at full. `xrandr --gamma`
  raises gamma from 1.0 to 1.9.

The current level persists in `~/.local/share/brightness_level`. If the
file is missing, the level defaults to 19, the top of the hardware band.

`xrandr` is aimed at the primary output. Its name is cached in
`/tmp/primary_monitor` for a day. The command line takes one of `max`,
`min`, `+` or `-`.

The model is pure. One invocation is a function from a `World` to an
`Outcome`:

- The `World` holds the level file, the monitor cache, the sysfs backlight
  directories, and the `xrandr` commands sent so far.
- An `Env` holds the clock reading and the text `xrandr` would print.
- An `Outcome` holds the world afterwards and the exception that escaped,
  if any. Effects that happened before the exception are kept, as they are
  in the program.

Modules:

| file | module | models |
|---|---|---|
| `common.dfy` | `Common` | `Option`, the two exceptions, Python list indexing with negative indices |
| `text.dfy` | `Text` | `str.split("\n")`, `str.split()[0]`, `str.strip()`, substring `in` |
| `curves.dfy` | `Curves` | `exp_range`, `linear_range`, `np.round`, `int()`, `argmin`, `inv_exp_range_transform` |
| `bands.dfy` | `Bands` | `LEVEL_SIZES` and `get_brightness_range` |
| `levels.dfy` | `Levels` | `read_brightness_level`, `write_brightness_level` |
| `backlight.dfy` | `Backlight` | `get_brightness_paths`, `get_max_hardware_brightness`, `set_hardware_brightness` |
| `monitor.dfy` | `Monitor` | `get_primary_monitor`, `get_primary_monitor_cached` |
| `gamma.dfy` | `Gamma` | `set_gamma_correction`, `remove_gamma_correction` |
| `engine.dfy` | `Engine` | `set_brightness_high_level`, `change_brightness`, `set_max_brightness`, `set_min_brightness` |
| `cli.dfy` | `Cli` | `main` of the command line |

Numbers are Dafny's exact `real`s. Where the program relies on floating
point, the model uses the exact value, so `linear_range(0.1, 1.0, 10)[9]`
is exactly 0.91.

`exp_range` produces NaN entries in three cases:

- **`alpha` is 1, or `n` is 0:** the normalisation divides 0 by 0.
- **`alpha` is negative:** `np.log(alpha)` is NaN.
- **`alpha` is 0:** `np.log(alpha)` is `-inf`, and the first entry
  multiplies it by 0, which gives NaN. Every entry then has that NaN
  subtracted from it.

In the model those tables are `None`.

## Model

| member | source | states |
|---|---|---|
| Common.PyIndex | Brightness/logic.py:127 | indexing succeeds exactly for `-len <= i < len`; a negative index counts from the end |
| Text.FirstWord | Brightness/logic.py:198 | the result has no whitespace; it is empty exactly when the line is all whitespace; otherwise it is the word starting at the first non-space character |
| Text.Strip | Brightness/logic.py:218 | the result neither starts nor ends with whitespace; it is empty exactly when the input is all whitespace; otherwise it is the input with its leading and trailing whitespace cut off |
| Text.SplitJoin | Brightness/logic.py:196 | joining the pieces of a split with the separator gives back the input, and no piece contains the separator |
| Text.JoinSplit | Brightness/logic.py:196 | splitting the join of separator-free pieces gives back those pieces |
| Curves.LinearRange | Brightness/logic.py:29-33 | `n + 1` values from `xmin` to `xmax`, every step equal to `(xmax - xmin) / n` |
| Curves.ExpRange | Brightness/logic.py:15-26 | the table exists exactly when `alpha > 0`, `alpha != 1` and `n > 0`; it has `n + 1` entries, the first `xmin` and the last `xmax` |
| Curves.ExpRangeIncreasing | tests/test_logic.py:57-61 | for `xmin < xmax` the table is strictly increasing, for every admissible `alpha` |
| Curves.ExpBelowLinear | tests/test_logic.py:49-54 | for `alpha > 1` every inner entry lies strictly below the linear table's entry, so the curve concentrates its steps at the low end |
| Curves.ExpMidpointBelowHalf | tests/test_logic.py:49-54 | `exp_range(0, 100, 10, 2.0)[5] < 50` |
| Curves.RoundHalfEven | Brightness/logic.py:42 | the result is within 0.5 of the input, and ties go to the even neighbour |
| Curves.RoundHalfEvenUnique | Brightness/logic.py:42 | any integer within 0.5 of `x` that breaks ties to even is the rounding of `x` |
| Curves.RoundHalfEvenMonotone | Brightness/logic.py:42 | rounding never reverses order |
| Curves.TruncateToInt | Brightness/logic.py:127 | `int()` truncates toward zero: floor for non-negatives, ceiling for negatives |
| Curves.NearestIndex | Brightness/logic.py:44 | `argmin` of the distances: an index of least distance, and no earlier index is as close |
| Curves.FirstNearestUnique | Brightness/logic.py:44 | the first nearest index is unique, so `argmin` is fully determined |
| Curves.NearestOfPresent | Brightness/logic.py:44 | a value present in the table maps to its first occurrence; in a strictly increasing table, to its only occurrence |
| Curves.RoundedExpRangeMonotone | Brightness/logic.py:41-42 | for `xmin <= xmax`, the rounded table is non-decreasing |
| Curves.InvExpRangeTransform | Brightness/logic.py:36-46 | returns the first index whose rounded table entry is nearest to `level`; `level = round(xmin)` gives 0; `round(xmax)` gives `n` unless an earlier entry equals it |
| Bands.ClassifyInBand | Brightness/logic.py:73-84 | each level of the scale lies in its band at an offset smaller than the band size, and band start plus offset is the level |
| Bands.ClassifyOfOffset | Brightness/logic.py:73-84 | each offset of each band is classified back into that band at that offset, so (band, offset) is a bijection with the scale |
| Bands.ClassifyBoundaries | tests/test_logic.py:151-161 | edges fall between 9/10 and 19/20; negatives are dark, anything past 29 bright; 30 levels and default 19 |
| Bands.ClassifyMonotone | Brightness/logic.py:79-84 | a higher level never falls in an earlier band |
| Levels.WriteLevel | Brightness/logic.py:49-55 | after a write the file exists |
| Levels.ReadLevel | Brightness/logic.py:58-70 | the level read is what the file holds afterwards; an existing file is returned unchanged; a missing one yields 19 |
| Levels.ReadMissing | tests/test_logic.py:201-216 | a read with no file gives 19 and creates the file holding 19 |
| Levels.WriteThenRead | tests/test_logic.py:188-198 | a read after a write returns the value written and leaves the file as written |
| Levels.SecondWriteWins | tests/test_logic.py:219-230 | of two writes, the later one is read |
| Levels.ReadTwice | Brightness/logic.py:63-70 | reading a second time reads the same level and changes nothing |
| Backlight.UsablePaths | Brightness/logic.py:95-98 | a path is returned exactly when it is listed and has both control files; the order of the list is kept |
| Backlight.BrightnessPaths | Brightness/logic.py:87-100 | the exception is raised exactly when no candidate has both files; otherwise a non-empty list of exactly the usable candidates, in candidate order |
| Backlight.HardwareValue | Brightness/logic.py:127 | a value exists exactly for indices -10 to 9 of the ten-step table |
| Backlight.HardwareValueBounds | Brightness/logic.py:121-129 | step 0 writes 0 and step 9 writes the device maximum; values never decrease with the step and stay within `0 .. max` |
| Backlight.SetHardwareBrightness | Brightness/logic.py:121-129 | `NoBacklight` exactly when no candidate is usable; any exception of the model leaves sysfs untouched; success exactly when a device exists and the index is in range, writing the step to exactly the usable candidates and to nothing else |
| Monitor.FirstMarked | Brightness/logic.py:196-197 | the position of the first line containing "primary", or the line count when none does |
| Monitor.PrimaryMonitor | Brightness/logic.py:190-199 | the name has no whitespace; it is empty exactly when no line mentions "primary"; otherwise it is the first word of the first line that does |
| Monitor.PrimaryMonitorExample | Brightness/logic.py:191-193 | for a disconnected line followed by "eDP-1 connected primary 1920x1080+0+0", the name is "eDP-1" |
| Monitor.CachedPrimary | Brightness/logic.py:201-223 | afterwards the cache is present and younger than a day, and the name returned is its stripped text |
| Monitor.CacheHit | Brightness/logic.py:214-218 | a cache younger than a day is answered from the file, whatever `xrandr` prints, and the file is left alone |
| Monitor.CacheMiss | Brightness/logic.py:220-223 | a missing or day-old cache is re-resolved from `xrandr` and rewritten with the new name, stamped now |
| Monitor.CacheRoundTrip | Brightness/logic.py:201-223 | asking again within a day of a refresh returns the same name and changes nothing |
| Gamma.GammaSettings | Brightness/logic.py:138-143 | settings exist exactly for indices -11 to 10; the dark band has gamma 1 with brightness from 0.1..1.0; the bright band has brightness 1 with gamma from 1.0..2.0 |
| Gamma.GammaSettingsInBand | Brightness/logic.py:132-143 | over offsets 0 to 9, dark brightness rises strictly from 0.1 and stays below 1.0; bright gamma rises strictly from 1.0 and stays below 2.0 |
| Gamma.DarkNegativeIndexWraps | Brightness/logic.py:140 | offset -1 reads the last dark entry, full brightness; offset -12 raises |
| Gamma.SetGammaCorrection | Brightness/logic.py:132-147 | a command is sent exactly when the table lookup succeeds; it carries the looked-up gamma and brightness to the cached primary monitor; a failed lookup happens before the cache is consulted |
| Gamma.RemoveGammaCorrection | Brightness/logic.py:150-155 | sends gamma 1.0 with no brightness to the cached primary monitor |
| Engine.Plan | Brightness/logic.py:158-169 | three actions: a gamma action, a backlight action, then storing the level; on the scale every table index is within its band |
| Engine.PlanByBand | Brightness/logic.py:159-169 | the concrete actions of each band |
| Engine.PlanDetermined | Brightness/logic.py:158-169 | on the scale the gamma and backlight actions alone determine the level, so no two levels are driven the same way |
| Engine.PlanMonotone | Brightness/logic.py:158-168 | a higher level never lowers the backlight step; within a gamma band it raises the table index |
| Engine.Exec | Brightness/logic.py:158-169 | each action changes only its own part of the world; an exception changes nothing; each gamma action appends exactly one `xrandr` command |
| Engine.RunThree | Brightness/logic.py:158-169 | the three actions run in order, and the first exception stops the rest, so later actions never run |
| Engine.ApplyLevelEffect | Brightness/logic.py:158-169 | for a level of the scale, one `xrandr` command with the band's settings goes to the cached primary monitor; with a backlight, the step is written to every device and the level is stored; without one, `NoBacklight` escapes after the command and the level is not stored |
| Engine.BandSeams | Brightness/logic.py:138-143 | levels 19 and 20 both give a full backlight and gamma 1; levels 9 and 10 both give backlight step 0, with brightness 0.91 at 9 |
| Engine.NextLevelOnScale | Brightness/logic.py:176-180 | a step on the scale stays on it and moves by exactly one, except at the end it moves towards |
| Engine.NextLevelOffScale | Brightness/logic.py:177-180 | off the scale, stepping down from 40 gives 39 while stepping up gives 29; from -5, down gives 0 and up gives -4 |
| Engine.StepsSaturate | Brightness/logic.py:172-181 | `k` increases reach `min(level + k, 29)`; `k` decreases reach `max(level - k, 0)` |
| Engine.SetMaxEffect | Brightness/logic.py:184-188 | with a backlight, stores 19, sets every device to its maximum, and sends gamma 1 with no brightness |
| Engine.SetMinEffect | Brightness/logic.py:225-229 | with a backlight, stores 9, sets every device to step 0, and sends gamma 1 with brightness 0.91 |
| Engine.ChangeBrightnessEffect | Brightness/logic.py:172-181 | with a backlight and a valid stored level, the stored level becomes the stepped level; with no file, the step starts from 19 |
| Engine.ChangeBrightnessNoBacklight | Brightness/logic.py:176 | without a backlight a step fails, but a missing level file has already been created holding 19 |
| Engine.CorruptLevelDecrease | Brightness/logic.py:176-181 | a stored 35 is not checked: `-` raises `IndexError` and changes nothing, while `+` clamps to 29 |
| Cli.ParseOperation | Brightness/cli.py:39-48 | a recognised operation is selected by exactly its own word |
| Cli.ParseKeyword | Brightness/cli.py:39-46 | each command's word selects that command |
| Cli.ParseOperationValid | Brightness/cli.py:39-48 | an operation is valid exactly when it is `max`, `min`, `+` or `-` |
| Cli.Finish | Brightness/cli.py:34-46 | status 0 exactly when no exception escaped; nothing is printed |
| Cli.Main | Brightness/cli.py:34-48 | an invalid operation prints "Invalid operation", exits 0 and leaves the world as it was; a valid one prints nothing and exits 0 or 1 |
| Cli.MainDispatch | tests/test_cli.py:26-55 | `max`, `min`, `+` and `-` run the maximum, minimum, increase and decrease handlers |
| Cli.Invoke | tests/test_cli.py:73-77 | without exactly one argument the usage error exits 2 and touches nothing |
| Cli.ApplyLevelValid | Brightness/logic.py:158-169 | applying a level of the scale keeps the level file on the scale and can raise only `NoBacklight` |
| Cli.MainKeepsLevelValid | Brightness/cli.py:34-48 | starting from a valid level file, the file stays valid; among the exceptions modelled, exit status 1 happens only when there is no backlight |
| Cli.ChangeValid | Brightness/logic.py:172-181 | a step from a valid level file keeps it valid and fails only for want of a backlight |
| Cli.InvalidUntouched | tests/test_cli.py:58-70 | an unknown word prints the message, exits 0, and touches no file, device or `xrandr` |
| Cli.MaxFromScratch | tests/test_cli.py:26-31 | `max` on a first run stores 19, sets every device to its maximum, and sends exactly one `xrandr` command, with gamma 1 |
| Cli.StepFromScratch | Brightness/logic.py:176-180 | with no level file, `+` stores 20 and `-` stores 18 |

## Left out

- **File and process I/O is out of the model.** Reading and writing files,
  `os.path.exists`, `os.system`, `subprocess.check_output` and
  `time.time()` do not appear. Their inputs are parameters: the world and
  the environment. Their outputs are fields of the world.
- **Integer parsing is out of the model.** The level file and the
  `max_brightness` file are modelled as holding an integer or being
  absent. The `ValueError` of `int()` on malformed text is not modelled.
- **Command-line text is not modelled.** The `xrandr` command line is
  modelled by its parameters (output, gamma, brightness), not its text.
  Python's float formatting, and shell quoting of the monitor name, are
  not modelled.
- **Floating point is idealised.** `np.exp`, `np.log`, `np.linspace` and
  rounding work on exact reals. `exp_range` is defined by the closed form
  that the program computes as `exp(k * log(alpha))`.
- Curves.InvExpRangeTransform: requires a defined table (`alpha > 0`,
  `alpha != 1`, `n > 0`). For the NaN table the program casts
  every rounded NaN to `int64`. numpy leaves that value
  platform-defined, and on common platforms every entry gets the same
  value, so `argmin` returns 0. That case is not modelled. It takes the level as an
  integer, so the `int(level)` conversion of a float level is not modelled.
- **`get_current_hardware_brightness` is not modelled.** Nothing calls
  it.
- Backlight.SetHardwareBrightness: the loop writes each usable device in
  turn. The model does it as one simultaneous update. When every write
  succeeds this is exact, because each iteration reads and writes only its
  own device, and the index check fails on the first device if it fails at
  all. A write that `open()` refuses is not modelled. In the program the
  devices before it stay written and the `xrandr` command has already
  gone out. What a device
  does with an out-of-range value is not modelled.
- **Only `FileNotFoundError` and `IndexError` are modelled.** These
  other exceptions are out of the model:
  - `OSError`/`PermissionError` from `open()`. This is the usual failure
    for a non-root user writing a sysfs `brightness` file
    (`Brightness/logic.py:128`). It can also come from opening the level
    file (`Brightness/logic.py:54`) or `/tmp/primary_monitor`
    (`Brightness/logic.py:221`).
  - `CalledProcessError` and a missing `xrandr` from `subprocess`.
  - UTF-8 decoding errors.
- **Python's `split()` on an all-whitespace line raises `IndexError`.**
  `Text.FirstWord` returns "" there instead. This cannot happen in the
  program: a line containing "primary" is never all whitespace, and
  `Monitor.PrimaryMonitor` proves this before calling it.
- Cli.MainKeepsLevelValid: exit status 1 is promised only for a missing
  backlight. A refused `open()` also exits 1, with a backlight present,
  but `OSError` is not modelled.
- Cli.Invoke: argument parsing belongs to Click and is modelled only by
  arity. Only these things are modelled: no argument or several arguments
  give usage status 2, and exactly one argument goes to `main`. Not
  modelled: `--help`, which prints the docstring and exits 0; option-like
  words; and the exact usage message.
- **The display server is not modelled.** Wayland detection is not part
  of `Brightness/logic.py`. What `xrandr` does to the display, including
  whether `--gamma 1.0` without `--brightness` undoes an earlier dimming,
  is outside the model.
- **`Brightness/__init__.py` is not modelled.** It defines no behaviour.
- **Concurrency is not modelled.** Two invocations racing on the level
  file or the cache are not modelled. One invocation reads the clock once.
- **Removing gamma correction sends only `--gamma 1.0`**
  (`Brightness/logic.py:155`). It passes no `--brightness`, so nothing in
  the command resets a brightness set earlier.
- **The backlight step goes to every usable device in the candidate
  list** (`Brightness/logic.py:125-129`). This holds even though the
  docstring of `get_brightness_paths` (`Brightness/logic.py:89`) speaks of
  a single brightness file.
- **`change_brightness` returns nothing** (`Brightness/logic.py:172-181`).
  Its docstring says it increases the level and returns the new one, but
  the body has no `return` and also decreases. The model gives only the
  `Outcome`, and the new level is read from the level file it leaves.

=== FILE: backlight.dfy ===
/** The backlight driver of `Brightness/logic.py`: find the backlight devices
    among a fixed list of sysfs directories, and write a step of the
    exponential hardware curve into each of them. The sysfs tree is an
    explicit map from device directory to its two control files. */
module Backlight {
  import opened Common
  import opened Curves
  import Bands

  /** The device directories searched, in order. */
  const Candidates: seq<string> := [
    "/sys/class/backlight/amdgpu_bl1",
    "/sys/class/backlight/amdgpu_bl0",
    "/sys/class/backlight/nvidia_wmi_ec_backlight",
    "/sys/class/backlight/intel_backlight"
  ]

  /** The hardware curve has `LEVEL_SIZES[1] - 1` steps, so ten entries. */
  const HardwareSteps: nat := Bands.LevelSizes[1] - 1
  const HardwareAlpha: real := 1.4

  /** The two control files of a device directory, `None` when absent. */
  datatype Device = Device(brightness: Option<int>, maxBrightness: Option<int>)

  type Sysfs = map<string, Device>

  /** Both `brightness` and `max_brightness` exist under `path`. */
  predicate Usable(fs: Sysfs, path: string) {
    path in fs && fs[path].brightness.Some? && fs[path].maxBrightness.Some?
  }

  /** Some candidate directory has both backlight control files. */
  predicate HasBacklight(fs: Sysfs) {
    exists p :: p in Candidates && Usable(fs, p)
  }

  /** `xs` can be obtained from `ys` by deleting elements, so it keeps their
      order. */
  ghost predicate Subsequence<T>(xs: seq<T>, ys: seq<T>)
    decreases |ys|
  {
    if |xs| == 0 then true
    else if |ys| == 0 then false
    else if xs[0] == ys[0] then Subsequence(xs[1..], ys[1..])
    else Subsequence(xs, ys[1..])
  }

  /** The usable directories among `paths`, in the order given. */
  function UsablePaths(paths: seq<string>, fs: Sysfs): (r: seq<string>)
    ensures forall p :: p in r <==> p in paths && Usable(fs, p)
    ensures Subsequence(r, paths)
  {
    if |paths| == 0 then []
    else
      var rest := UsablePaths(paths[1..], fs);
      assert forall p :: p in paths <==> p == paths[0] || p in paths[1..];
      if Usable(fs, paths[0]) then
        assert ([paths[0]] + rest)[1..] == rest;
        [paths[0]] + rest
      else
        assert paths[0] !in rest;
        rest
  }

  /** `get_brightness_paths`: every usable candidate, in candidate order;
      `None` is the `FileNotFoundError` raised when there is none. */
  function BrightnessPaths(fs: Sysfs): (r: Option<seq<string>>)
    ensures r.None? <==> !HasBacklight(fs)
    ensures r.Some? ==> |r.value| > 0
    ensures r.Some? ==> forall p :: p in r.value <==> p in Candidates && Usable(fs, p)
    ensures r.Some? ==> Subsequence(r.value, Candidates)
  {
    var paths := UsablePaths(Candidates, fs);
    if |paths| == 0 then None
    else
      assert paths[0] in paths;
      Some(paths)
  }

  /** `exp_range(0, max_brightness, 9, 1.4)`. */
  function HardwareTable(maxBrightness: int): (t: seq<real>)
    ensures |t| == HardwareSteps + 1
  {
    ExpRange(0.0, maxBrightness as real, HardwareSteps, HardwareAlpha).value
  }

  /** The raw value written for step `idx`: the table entry truncated by
      `int()`; `None` is the `IndexError` of an index outside the table. */
  function HardwareValue(maxBrightness: int, idx: int): (v: Option<int>)
    ensures v.Some? <==> -(HardwareSteps + 1) <= idx <= HardwareSteps
  {
    match PyIndex(HardwareTable(maxBrightness), idx)
    case None => None
    case Some(x) => Some(TruncateToInt(x))
  }

  /** Step 0 turns the backlight to 0, step 9 to the device maximum, and the
      steps in between stay within `0 .. max` without ever going down. */
  lemma HardwareValueBounds(maxBrightness: int, i: int, j: int)
    requires maxBrightness >= 0
    requires 0 <= i <= j <= HardwareSteps
    ensures HardwareValue(maxBrightness, i).Some? && HardwareValue(maxBrightness, j).Some?
    ensures 0 <= HardwareValue(maxBrightness, i).value <= HardwareValue(maxBrightness, j).value <= maxBrightness
    ensures HardwareValue(maxBrightness, 0) == Some(0)
    ensures HardwareValue(maxBrightness, HardwareSteps) == Some(maxBrightness)
  {
    var t := HardwareTable(maxBrightness);
    var m := maxBrightness as real;
    assert t[0] == 0.0 && t[HardwareSteps] == m;
    if maxBrightness > 0 {
      ExpRangeIncreasing(0.0, m, HardwareSteps, HardwareAlpha);
      assert 0.0 <= t[i] <= t[j] <= m by {
        if 0 < i { assert t[0] < t[i]; }
        if i < j { assert t[i] < t[j]; }
        if j < HardwareSteps { assert t[j] < t[HardwareSteps]; }
      }
    } else {
      HardwareTableFlat(t[i], i);
      HardwareTableFlat(t[j], j);
    }
  }

  /** A device whose maximum is 0 gets 0 at every step. */
  lemma HardwareTableFlat(x: real, i: int)
    requires 0 <= i <= HardwareSteps && x == HardwareTable(0)[i]
    ensures x == 0.0
  {
    assert x == ExpEntry(0.0, 0.0, HardwareSteps, HardwareAlpha, i);
  }

  /** A device after step `idx` has been written to it. */
  function Written(d: Device, idx: int): Device
    requires d.maxBrightness.Some?
    requires -(HardwareSteps + 1) <= idx <= HardwareSteps
  {
    d.(brightness := Some(HardwareValue(d.maxBrightness.value, idx).value))
  }

  /** `fs'` is `fs` with step `idx` written to exactly the usable candidates. */
  ghost predicate WrittenToUsable(fs: Sysfs, fs': Sysfs, idx: int)
    requires -(HardwareSteps + 1) <= idx <= HardwareSteps
  {
    && fs'.Keys == fs.Keys
    && forall p :: p in fs ==>
         fs'[p] == if p in Candidates && Usable(fs, p) then Written(fs[p], idx) else fs[p]
  }

  /** `set_hardware_brightness(idx)`: write step `idx` to every usable
      candidate, or fail without writing anything. The loop reads each
      device's own maximum and writes only that device, and the index check
      fails on the first device if it fails at all, so the loop is one
      simultaneous update. */
  function SetHardwareBrightness(fs: Sysfs, idx: int): (res: (Sysfs, Option<Fault>))
    ensures res.1 == Some(NoBacklight) <==> !HasBacklight(fs)
    ensures res.1.Some? ==> res.0 == fs
    ensures res.1.None? <==> HasBacklight(fs) && -(HardwareSteps + 1) <= idx <= HardwareSteps
    ensures res.1.None? ==> WrittenToUsable(fs, res.0, idx)
  {
    match BrightnessPaths(fs)
    case None => (fs, Some(NoBacklight))
    case Some(paths) =>
      assert paths[0] in Candidates && Usable(fs, paths[0]);
      if !(-(HardwareSteps + 1) <= idx <= HardwareSteps) then (fs, Some(IndexOutOfRange))
      else
        var fs' := map p | p in fs :: if p in paths then Written(fs[p], idx) else fs[p];
        assert fs'.Keys == fs.Keys;
        (fs', None)
  }
}

=== FILE: bands.dfy ===
/** The range classifier of `Brightness/logic.py`: the 30-step scale is cut
    into three bands of `LevelSizes` levels each, dark gamma, hardware
    backlight and bright gamma. */
module Bands {

  const LevelSizes: seq<nat> := [10, 10, 10]
  const StepSize: int := 1

  /** `sum(LEVEL_SIZES)`. */
  const NumLevels: int := LevelSizes[0] + LevelSizes[1] + LevelSizes[2]
  const MaxLevel: int := NumLevels - 1

  /** Top of the hardware band: the level used when no level is stored yet. */
  const DefaultLevel: int := LevelSizes[0] + LevelSizes[1] - 1

  datatype Band = DarkGamma | Hardware | BrightGamma

  /** A level the scale is meant to hold. */
  predicate InRange(level: int) {
    0 <= level <= MaxLevel
  }

  /** `get_brightness_range`: total over all integers; everything below the
      hardware band is dark, everything above it bright. */
  function Classify(level: int): Band {
    if level < LevelSizes[0] then DarkGamma
    else if level < LevelSizes[0] + LevelSizes[1] then Hardware
    else BrightGamma
  }

  /** Position of a band in `LevelSizes`. */
  function Position(b: Band): nat {
    match b
    case DarkGamma => 0
    case Hardware => 1
    case BrightGamma => 2
  }

  function BandSize(b: Band): nat {
    LevelSizes[Position(b)]
  }

  /** The first level of a band: the sizes of the bands before it. */
  function BandStart(b: Band): int {
    match b
    case DarkGamma => 0
    case Hardware => LevelSizes[0]
    case BrightGamma => LevelSizes[0] + LevelSizes[1]
  }

  /** A level's position inside its band. */
  function Offset(level: int): int {
    level - BandStart(Classify(level))
  }

  /** Every level of the scale lies in the band it is classified into, at an
      offset inside that band. */
  lemma ClassifyInBand(level: int)
    requires InRange(level)
    ensures 0 <= Offset(level) < BandSize(Classify(level))
    ensures BandStart(Classify(level)) + Offset(level) == level
  {
  }

  /** Conversely, every offset of every band is classified back into that
      band, so `(Classify, Offset)` is a bijection between the scale and the
      band/offset pairs. */
  lemma ClassifyOfOffset(b: Band, o: int)
    requires 0 <= o < BandSize(b)
    ensures Classify(BandStart(b) + o) == b
    ensures Offset(BandStart(b) + o) == o
    ensures InRange(BandStart(b) + o)
  {
  }

  /** The band edges fall between 9 and 10 and between 19 and 20; negative
      levels count as dark and levels past the scale as bright. */
  lemma ClassifyBoundaries()
    ensures Classify(LevelSizes[0] - 1) == DarkGamma && Classify(LevelSizes[0]) == Hardware
    ensures Classify(DefaultLevel) == Hardware && Classify(DefaultLevel + 1) == BrightGamma
    ensures forall level :: level < 0 ==> Classify(level) == DarkGamma
    ensures forall level :: level > MaxLevel ==> Classify(level) == BrightGamma
    ensures NumLevels == 30 && MaxLevel == 29 && DefaultLevel == 19
  {
  }

  /** Classification is monotone: a higher level never falls in an earlier
      band. */
  lemma ClassifyMonotone(l1: int, l2: int)
    requires l1 <= l2
    ensures Position(Classify(l1)) <= Position(Classify(l2))
  {
  }
}

=== FILE: cli.dfy ===
/** The command-line entry point of `Brightness/cli.py`: one positional
    operation, `max`, `min`, `+` or `-`, dispatched to the engine. An
    exception escaping a handler ends the process with status 1. */
module Cli {
  import opened Common
  import opened Bands
  import opened Backlight
  import opened Engine

  datatype Command = Max | Min | Increase | Decrease | Invalid

  /** The operation word each command is selected by. */
  function Keyword(c: Command): string
    requires !c.Invalid?
  {
    match c
    case Max => "max"
    case Min => "min"
    case Increase => "+"
    case Decrease => "-"
  }

  /** The `if`/`elif` chain of `main`: exact, case-sensitive matches, anything
      else is invalid. */
  function ParseOperation(op: string): (c: Command)
    ensures !c.Invalid? ==> Keyword(c) == op
  {
    if op == "max" then Max
    else if op == "min" then Min
    else if op == "+" then Increase
    else if op == "-" then Decrease
    else Invalid
  }

  /** Each command is selected by its own word, so the words are distinct. */
  lemma ParseKeyword(c: Command)
    requires !c.Invalid?
    ensures ParseOperation(Keyword(c)) == c
  {
  }

  /** An operation is valid exactly when it is one of the four words. */
  lemma ParseOperationValid(op: string)
    ensures !ParseOperation(op).Invalid? <==> op in {"max", "min", "+", "-"}
  {
  }

  /** The end of one invocation: the world left behind, what was printed and
      the exit status. */
  datatype Exit = Exit(world: World, stdout: string, status: int)

  const InvalidMessage: string := "Invalid operation\n"

  /** Status 0 on normal return, 1 when a handler raised. */
  function Finish(o: Outcome): (e: Exit)
    ensures e.world == o.world && e.stdout == []
    ensures e.status == 0 <==> o.fault.None?
  {
    Exit(o.world, [], if o.fault.None? then 0 else 1)
  }

  /** `main(operation)`. */
  function Main(operation: string, w: World, env: Env): (e: Exit)
    ensures ParseOperation(operation).Invalid? ==> e == Exit(w, InvalidMessage, 0)
    ensures !ParseOperation(operation).Invalid? ==> e.stdout == [] && (e.status == 0 || e.status == 1)
  {
    match ParseOperation(operation)
    case Max => Finish(SetMaxBrightness(w, env))
    case Min => Finish(SetMinBrightness(w, env))
    case Increase => Finish(ChangeBrightness(true, w, env))
    case Decrease => Finish(ChangeBrightness(false, w, env))
    case Invalid => Exit(w, InvalidMessage, 0)
  }

  /** The handler each operation word runs, and the step direction of `+` and
      `-`. */
  lemma MainDispatch(w: World, env: Env)
    ensures Main("max", w, env) == Finish(SetMaxBrightness(w, env))
    ensures Main("min", w, env) == Finish(SetMinBrightness(w, env))
    ensures Main("+", w, env) == Finish(ChangeBrightness(true, w, env))
    ensures Main("-", w, env) == Finish(ChangeBrightness(false, w, env))
  {
  }

  /** What the shell passes after the program name. Only the arity is
      modelled: `--help` and unknown options are left to Click. */
  function Invoke(args: seq<string>, w: World, env: Env): (e: Exit)
    ensures |args| != 1 ==> e.world == w && e.status == 2
    ensures |args| == 1 ==> e == Main(args[0], w, env)
  {
    if |args| == 1 then Main(args[0], w, env)
    else Exit(w, [], 2)
  }

  /** The level file holds a level of the scale, or does not exist yet. */
  predicate ValidLevelFile(w: World) {
    w.levelFile.None? || InRange(w.levelFile.value)
  }

  /** Applying a level of the scale keeps the level file valid, and the only
      exception it can raise is the missing backlight. */
  lemma ApplyLevelValid(level: int, w: World, env: Env)
    requires InRange(level) && ValidLevelFile(w)
    ensures ValidLevelFile(ApplyLevel(level, w, env).world)
    ensures ApplyLevel(level, w, env).fault in {None, Some(NoBacklight)}
  {
    ApplyLevelEffect(level, w, env);
  }

  /** Every invocation from a valid level file leaves a valid level file, and
      fails, if at all, only for want of a backlight: the table lookups that
      could raise `IndexError` are never reached with a bad index. */
  lemma MainKeepsLevelValid(operation: string, w: World, env: Env)
    requires ValidLevelFile(w)
    ensures ValidLevelFile(Main(operation, w, env).world)
    ensures Main(operation, w, env).status == 1 ==> !HasBacklight(w.backlight)
  {
    match ParseOperation(operation)
    case Max => ApplyLevelValid(DefaultLevel, w, env);
      ApplyLevelEffect(DefaultLevel, w, env);
    case Min => ApplyLevelValid(LevelSizes[0] - 1, w, env);
      ApplyLevelEffect(LevelSizes[0] - 1, w, env);
    case Increase => ChangeValid(true, w, env);
    case Decrease => ChangeValid(false, w, env);
    case Invalid =>
  }

  lemma ChangeValid(increase: bool, w: World, env: Env)
    requires ValidLevelFile(w)
    ensures ValidLevelFile(ChangeBrightness(increase, w, env).world)
    ensures ChangeBrightness(increase, w, env).fault.Some? ==> !HasBacklight(w.backlight)
  {
    var (level, file) := Levels.ReadLevel(w.levelFile);
    NextLevelOnScale(level, increase);
    ApplyLevelValid(NextLevel(level, increase), w.(levelFile := file), env);
    ApplyLevelEffect(NextLevel(level, increase), w.(levelFile := file), env);
  }

  /** An invalid operation prints the message, exits normally and touches
      nothing: no level file, no cache, no backlight, no `xrandr`. */
  lemma InvalidUntouched(operation: string, w: World, env: Env)
    requires operation !in {"max", "min", "+", "-"}
    ensures Main(operation, w, env) == Exit(w, InvalidMessage, 0)
  {
    ParseOperationValid(operation);
  }

  /** `max` from a first run with a backlight: the level file is created
      holding 19, every backlight device is set to its maximum, and exactly
      one `xrandr` command, with gamma 1, is sent. */
  lemma MaxFromScratch(w: World, env: Env)
    requires HasBacklight(w.backlight) && w.levelFile.None? && w.xrandr == []
    ensures var e := Main("max", w, env);
      && e.status == 0
      && e.world.levelFile == Some(19)
      && |e.world.xrandr| == 1 && e.world.xrandr[0].gamma == 1.0
      && WrittenToUsable(w.backlight, e.world.backlight, 9)
  {
    SetMaxEffect(w, env);
  }

  /** From no level file, `+` and `-` step from 19 to 20 and to 18. */
  lemma StepFromScratch(w: World, env: Env)
    requires HasBacklight(w.backlight) && w.levelFile.None?
    ensures Main("+", w, env).world.levelFile == Some(20)
    ensures Main("-", w, env).world.levelFile == Some(18)
  {
    ChangeBrightnessEffect(true, w, env);
    ChangeBrightnessEffect(false, w, env);
  }
}

=== FILE: common.dfy ===
/** Small shared vocabulary: optional values, the exceptions the engine can
    raise, and Python's list indexing. */
module Common {

  /** A value that may be absent: a file that does not exist, an index that
      raises. */
  datatype Option<+T> = None | Some(value: T)

  /** The exceptions the model tracks. */
  datatype Fault =
    | NoBacklight      // FileNotFoundError: no candidate device has both control files
    | IndexOutOfRange  // IndexError: a band offset outside a curve table

  /** Python's `xs[i]`: negative indices count from the end, anything outside
      `-|xs| .. |xs|-1` raises. */
  function PyIndex<T>(xs: seq<T>, i: int): (r: Option<T>)
    ensures r.Some? <==> -|xs| <= i < |xs|
    ensures 0 <= i < |xs| ==> r == Some(xs[i])
    ensures -|xs| <= i < 0 ==> r == Some(xs[|xs| + i])
  {
    if 0 <= i < |xs| then Some(xs[i])
    else if -|xs| <= i < 0 then Some(xs[|xs| + i])
    else None
  }
}

=== FILE: curves.dfy ===
/** The curve generator of `Brightness/logic.py`: linear and exponential
    interpolation tables, and the inverse lookup from a value to the nearest
    table index. numpy's floating point is idealised to exact `real`
    arithmetic; `exp(i * ln alpha)` is written as `alpha^i`. */
module Curves {
  import opened Common

  /** `a` raised to the natural power `k`. */
  function Pow(a: real, k: nat): real {
    if k == 0 then 1.0 else a * Pow(a, k - 1)
  }

  lemma {:induction false} PowPositive(a: real, k: nat)
    requires a > 0.0
    ensures Pow(a, k) > 0.0
  {
    if k > 0 {
      PowPositive(a, k - 1);
    }
  }

  lemma ScaleBy(a: real, p: real)
    requires a > 0.0 && p > 0.0
    ensures a > 1.0 ==> p < a * p
    ensures a < 1.0 ==> a * p < p
  {
    if a > 1.0 {
      assert (a - 1.0) * p > 0.0;
    } else if a < 1.0 {
      assert (1.0 - a) * p > 0.0;
    }
  }

  /** One more factor of `a`. */
  lemma PowSucc(a: real, k: nat)
    ensures Pow(a, k + 1) == a * Pow(a, k)
  {
  }

  lemma PowStep(a: real, k: nat)
    requires a > 0.0
    ensures a > 1.0 ==> Pow(a, k) < Pow(a, k + 1)
    ensures a < 1.0 ==> Pow(a, k) > Pow(a, k + 1)
  {
    PowPositive(a, k);
    PowSucc(a, k);
    ScaleBy(a, Pow(a, k));
  }

  /** Powers of a base above one grow strictly, powers of a base in (0, 1)
      shrink strictly. */
  lemma {:induction false} PowStrict(a: real, i: nat, j: nat)
    requires a > 0.0 && a != 1.0
    requires i < j
    ensures a > 1.0 ==> Pow(a, i) < Pow(a, j)
    ensures a < 1.0 ==> Pow(a, i) > Pow(a, j)
    decreases j
  {
    PowStep(a, j - 1);
    if i < j - 1 {
      PowStrict(a, i, j - 1);
    }
  }

  /** `np.linspace(xmin, xmax, n + 1)`: `n + 1` evenly spaced values from
      `xmin` to `xmax` (a single `xmin` when `n` is 0). */
  function LinearRange(xmin: real, xmax: real, n: nat): (r: seq<real>)
    ensures |r| == n + 1
    ensures r[0] == xmin
    ensures n > 0 ==> r[n] == xmax
    ensures forall i :: 0 <= i < n ==> r[i + 1] - r[i] == (xmax - xmin) / n as real
  {
    if n == 0 then [xmin]
    else
      var step := (xmax - xmin) / n as real;
      assert n as real * step == xmax - xmin;
      seq(n + 1, i requires 0 <= i <= n => xmin + i as real * step)
  }

  /** The shifted exponential `alpha^k - 1` the exponential table is built on. */
  function Shifted(alpha: real, k: nat): real {
    Pow(alpha, k) - 1.0
  }

  /** The parameters for which numpy computes a table of numbers rather than
      NaNs: `log(alpha)` defined, and a non-zero normalising denominator. */
  predicate ExpDefined(n: nat, alpha: real) {
    alpha > 0.0 && alpha != 1.0 && n > 0
  }

  /** Entry `i` of the exponential table, affinely normalised so that entry 0
      is `xmin` and entry `n` is `xmax`. */
  function ExpEntry(xmin: real, xmax: real, n: nat, alpha: real, i: nat): real
    requires ExpDefined(n, alpha)
  {
    PowStrict(alpha, 0, n);
    (Shifted(alpha, i) - Shifted(alpha, 0)) / (Shifted(alpha, n) - Shifted(alpha, 0)) * (xmax - xmin) + xmin
  }

  /** `exp_range(xmin, xmax, n, alpha)`; `None` stands for the all-NaN array
      numpy produces when `alpha <= 0`, `alpha == 1` or `n == 0`. */
  function ExpRange(xmin: real, xmax: real, n: nat, alpha: real): (r: Option<seq<real>>)
    ensures r.Some? <==> ExpDefined(n, alpha)
    ensures r.Some? ==> |r.value| == n + 1 && r.value[0] == xmin && r.value[n] == xmax
  {
    if !ExpDefined(n, alpha) then None
    else
      PowStrict(alpha, 0, n);
      Some(seq(n + 1, i requires 0 <= i <= n => ExpEntry(xmin, xmax, n, alpha, i)))
  }

  lemma QuotientOrder(x: real, y: real, d: real)
    requires (d > 0.0 && x < y) || (d < 0.0 && x > y)
    ensures x / d < y / d
  {
    if d > 0.0 {
      assert y / d - x / d == (y - x) / d;
    } else {
      assert y / d - x / d == (x - y) / (-d);
    }
  }

  /** For any allowed alpha, a range with `xmin < xmax` gives a strictly
      increasing table (for alpha below one the curve is concave instead of
      convex, but still rises). */
  lemma ExpRangeIncreasing(xmin: real, xmax: real, n: nat, alpha: real)
    requires ExpDefined(n, alpha) && xmin < xmax
    ensures var t := ExpRange(xmin, xmax, n, alpha).value;
      forall i, j :: 0 <= i < j <= n ==> t[i] < t[j]
  {
    var t := ExpRange(xmin, xmax, n, alpha).value;
    forall i, j | 0 <= i < j <= n
      ensures t[i] < t[j]
    {
      var d := Shifted(alpha, n) - Shifted(alpha, 0);
      var x := Shifted(alpha, i) - Shifted(alpha, 0);
      var y := Shifted(alpha, j) - Shifted(alpha, 0);
      PowStrict(alpha, i, j);
      PowStrict(alpha, 0, n);
      QuotientOrder(x, y, d);
      assert (y / d - x / d) * (xmax - xmin) > 0.0;
      assert t[i] == x / d * (xmax - xmin) + xmin;
      assert t[j] == y / d * (xmax - xmin) + xmin;
    }
  }

  /** `1 + a + ... + a^(k-1)`. */
  function GeoSum(a: real, k: nat): real {
    if k == 0 then 0.0 else GeoSum(a, k - 1) + Pow(a, k - 1)
  }

  lemma {:induction false} ShiftedIsGeoSum(a: real, k: nat)
    ensures Shifted(a, k) == (a - 1.0) * GeoSum(a, k)
  {
    if k > 0 {
      ShiftedIsGeoSum(a, k - 1);
      var g := GeoSum(a, k - 1);
      assert Pow(a, k - 1) == (a - 1.0) * g + 1.0;
      assert Pow(a, k) == a * ((a - 1.0) * g + 1.0);
      assert GeoSum(a, k) == a * g + 1.0;
      assert (a - 1.0) * (a * g + 1.0) == a * ((a - 1.0) * g + 1.0) - 1.0;
    }
  }

  lemma {:induction false} GeoSumPositive(a: real, k: nat)
    requires a > 0.0 && k >= 1
    ensures GeoSum(a, k) > 0.0
  {
    PowPositive(a, k - 1);
    if k > 1 {
      GeoSumPositive(a, k - 1);
    }
  }

  /** For a base above one, each term of the sum is below the next power. */
  lemma {:induction false} GeoSumBelow(a: real, k: nat)
    requires a > 1.0 && k >= 1
    ensures GeoSum(a, k) < k as real * Pow(a, k)
  {
    PowStrict(a, k - 1, k);
    if k > 1 {
      GeoSumBelow(a, k - 1);
      assert GeoSum(a, k) < (k - 1) as real * Pow(a, k - 1) + Pow(a, k - 1);
      assert k as real * Pow(a, k - 1) < k as real * Pow(a, k);
    }
  }

  /** The mean `GeoSum(a, k) / k` grows strictly with `k`. */
  lemma MeanStep(a: real, k: nat)
    requires a > 1.0 && k >= 1
    ensures (k + 1) as real * GeoSum(a, k) < k as real * GeoSum(a, k + 1)
  {
    GeoSumBelow(a, k);
    assert GeoSum(a, k + 1) == GeoSum(a, k) + Pow(a, k);
    assert k as real * GeoSum(a, k + 1) == k as real * GeoSum(a, k) + k as real * Pow(a, k);
  }

  lemma {:induction false} MeanIncreasing(a: real, i: nat, n: nat)
    requires a > 1.0 && 1 <= i < n
    ensures n as real * GeoSum(a, i) < i as real * GeoSum(a, n)
    decreases n
  {
    if n == i + 1 {
      MeanStep(a, i);
    } else {
      var m := n - 1;
      MeanIncreasing(a, i, m);
      MeanStep(a, m);
      ChainRatio(GeoSum(a, i), GeoSum(a, m), GeoSum(a, n), i as real, m as real, n as real);
    }
  }

  /** Cross-multiplied ratios compare transitively: `gi/ri < gm/rm < gn/rn`. */
  lemma ChainRatio(gi: real, gm: real, gn: real, ri: real, rm: real, rn: real)
    requires ri > 0.0 && rm > 0.0 && rn > 0.0
    requires rm * gi < ri * gm && rn * gm < rm * gn
    ensures rn * gi < ri * gn
  {
    assert rn * (rm * gi) < rn * (ri * gm);
    assert ri * (rn * gm) < ri * (rm * gn);
    assert rm * (rn * gi) < rm * (ri * gn);
  }

  lemma CancelFactor(c: real, x: real, y: real)
    requires c != 0.0 && y != 0.0
    ensures (c * x) / (c * y) == x / y
  {
    assert (c * x) / (c * y) * (c * y) == c * x;
    assert x / y * (c * y) == c * x;
  }

  lemma RatioBelow(x: real, y: real, p: real, q: real)
    requires y > 0.0 && q > 0.0 && x * q < p * y
    ensures x / y < p / q
  {
    assert x / y == (x * q) / (y * q);
    assert p / q == (p * y) / (y * q);
  }

  /** Entry `i` of an `alpha > 1` table, written with geometric sums. */
  lemma ExpEntryAsGeoSum(xmin: real, xmax: real, n: nat, alpha: real, i: nat)
    requires alpha > 1.0 && n > 0 && i <= n
    ensures GeoSum(alpha, n) > 0.0
    ensures ExpRange(xmin, xmax, n, alpha).value[i]
         == GeoSum(alpha, i) / GeoSum(alpha, n) * (xmax - xmin) + xmin
  {
    ShiftedIsGeoSum(alpha, i);
    ShiftedIsGeoSum(alpha, n);
    ShiftedIsGeoSum(alpha, 0);
    GeoSumPositive(alpha, n);
    var c := alpha - 1.0;
    var gi, gn := GeoSum(alpha, i), GeoSum(alpha, n);
    CancelFactor(c, gi, gn);
    var x := Shifted(alpha, i) - Shifted(alpha, 0);
    var d := Shifted(alpha, n) - Shifted(alpha, 0);
    assert x == c * gi;
    assert d == c * gn;
    assert x / d == gi / gn;
    var e := ExpRange(xmin, xmax, n, alpha).value[i];
    assert e == ExpEntry(xmin, xmax, n, alpha, i);
    assert e == x / d * (xmax - xmin) + xmin;
  }

  /** The shape of the `alpha > 1` curve: every interior entry lies strictly
      below the matching entry of the linear table, so the steps are denser
      near `xmin`. */
  lemma ExpBelowLinear(xmin: real, xmax: real, n: nat, alpha: real, i: nat)
    requires alpha > 1.0 && n > 0 && xmin < xmax
    requires 0 < i < n
    ensures ExpRange(xmin, xmax, n, alpha).value[i] < LinearRange(xmin, xmax, n)[i]
  {
    var gi, gn := GeoSum(alpha, i), GeoSum(alpha, n);
    var ri, rn := i as real, n as real;
    var w := xmax - xmin;
    ExpEntryAsGeoSum(xmin, xmax, n, alpha, i);
    MeanIncreasing(alpha, i, n);
    RatioBelow(gi, gn, ri, rn);
    assert gi / gn * w < ri / rn * w;
    assert LinearRange(xmin, xmax, n)[i] == xmin + ri * (w / rn);
    assert ri * (w / rn) == ri / rn * w;
  }

  /** With alpha 2 the middle entry of `0 .. 100` in ten steps lies below
      50: the first half of the steps covers less than half the range. */
  lemma ExpMidpointBelowHalf()
    ensures ExpRange(0.0, 100.0, 10, 2.0).value[5] < 50.0
  {
    ExpBelowLinear(0.0, 100.0, 10, 2.0, 5);
  }

  /** `np.round` on one number: round half to even. */
  function RoundHalfEven(x: real): (r: int)
    ensures r as real - 0.5 <= x <= r as real + 0.5
    ensures (x == r as real - 0.5 || x == r as real + 0.5) ==> r % 2 == 0
  {
    var f := x.Floor;
    var d := x - f as real;
    if d < 0.5 then f
    else if d > 0.5 then f + 1
    else if f % 2 == 0 then f
    else f + 1
  }

  /** The two properties above pin the rounded value down: no other integer
      has them. */
  lemma RoundHalfEvenUnique(x: real, k: int)
    requires k as real - 0.5 <= x <= k as real + 0.5
    requires (x == k as real - 0.5 || x == k as real + 0.5) ==> k % 2 == 0
    ensures k == RoundHalfEven(x)
  {
  }

  lemma RoundHalfEvenMonotone(x: real, y: real)
    requires x <= y
    ensures RoundHalfEven(x) <= RoundHalfEven(y)
  {
  }

  /** Python's `int()` on a number: truncation toward zero. */
  function TruncateToInt(x: real): (r: int)
    ensures x >= 0.0 ==> 0 <= r && r as real <= x < r as real + 1.0
    ensures x < 0.0 ==> r <= 0 && r as real - 1.0 < x <= r as real
  {
    if x >= 0.0 then x.Floor else -((-x).Floor)
  }

  function Distance(a: int, b: int): nat {
    if a >= b then a - b else b - a
  }

  /** `k` is what `np.argmin(np.abs(t - v))` returns: an index of minimal
      distance to `v`, and the first such index. */
  ghost predicate IsFirstNearest(t: seq<int>, v: int, k: int) {
    && 0 <= k < |t|
    && (forall j :: 0 <= j < |t| ==> Distance(t[k], v) <= Distance(t[j], v))
    && (forall j :: 0 <= j < k ==> Distance(t[j], v) > Distance(t[k], v))
  }

  /** The first-minimum argmin of `|t[i] - v|`. */
  method NearestIndex(t: seq<int>, v: int) returns (k: nat)
    requires |t| > 0
    ensures IsFirstNearest(t, v, k)
  {
    k := 0;
    var i := 1;
    while i < |t|
      invariant 1 <= i <= |t|
      invariant k < i
      invariant forall j :: 0 <= j < i ==> Distance(t[k], v) <= Distance(t[j], v)
      invariant forall j :: 0 <= j < k ==> Distance(t[j], v) > Distance(t[k], v)
    {
      if Distance(t[i], v) < Distance(t[k], v) {
        k := i;
      }
      i := i + 1;
    }
  }

  /** No index before the first nearest one is as close. */
  lemma FirstNearestLeast(t: seq<int>, v: int, k: int, j: int)
    requires IsFirstNearest(t, v, k)
    requires 0 <= j < |t| && Distance(t[j], v) <= Distance(t[k], v)
    ensures k <= j
  {
  }

  /** There is only one first nearest index. */
  lemma FirstNearestUnique(t: seq<int>, v: int, k1: int, k2: int)
    requires IsFirstNearest(t, v, k1) && IsFirstNearest(t, v, k2)
    ensures k1 == k2
  {
    FirstNearestLeast(t, v, k1, k2);
    FirstNearestLeast(t, v, k2, k1);
  }

  /** When `v` occurs in the table, the lookup lands on its first occurrence;
      on a strictly increasing table that is the one place it occurs. */
  lemma NearestOfPresent(t: seq<int>, v: int, i: int, k: int)
    requires 0 <= i < |t| && t[i] == v
    requires IsFirstNearest(t, v, k)
    ensures t[k] == v && k <= i
    ensures forall j :: 0 <= j < k ==> t[j] != v
    ensures (forall a, b :: 0 <= a < b < |t| ==> t[a] < t[b]) ==> k == i
  {
    assert Distance(t[k], v) <= Distance(t[i], v) == 0;
  }

  /** The exponential table rounded to integers, as `inv_exp_range_transform`
      builds it. */
  function RoundedExpRange(xmin: real, xmax: real, n: nat, alpha: real): (r: seq<int>)
    requires ExpDefined(n, alpha)
    ensures |r| == n + 1
    ensures r[0] == RoundHalfEven(xmin) && r[n] == RoundHalfEven(xmax)
  {
    var t := ExpRange(xmin, xmax, n, alpha).value;
    seq(n + 1, i requires 0 <= i <= n => RoundHalfEven(t[i]))
  }

  /** With `xmin <= xmax` rounding keeps the table non-decreasing, though
      neighbouring entries may round to the same integer. */
  lemma RoundedExpRangeMonotone(xmin: real, xmax: real, n: nat, alpha: real)
    requires ExpDefined(n, alpha) && xmin <= xmax
    ensures var r := RoundedExpRange(xmin, xmax, n, alpha);
      forall i, j :: 0 <= i < j <= n ==> r[i] <= r[j]
  {
    var t := ExpRange(xmin, xmax, n, alpha).value;
    var r := RoundedExpRange(xmin, xmax, n, alpha);
    if xmin < xmax {
      ExpRangeIncreasing(xmin, xmax, n, alpha);
    }
    forall i, j | 0 <= i < j <= n
      ensures r[i] <= r[j]
    {
      if xmin == xmax {
        assert t[i] == ExpEntry(xmin, xmax, n, alpha, i) == xmin;
        assert t[j] == ExpEntry(xmin, xmax, n, alpha, j) == xmin;
      }
      RoundHalfEvenMonotone(t[i], t[j]);
    }
  }

  /** `inv_exp_range_transform(xmin, xmax, n, alpha, level)`: the index of the
      rounded exponential entry nearest to `level`. */
  method InvExpRangeTransform(xmin: real, xmax: real, n: nat, alpha: real, level: int)
    returns (idx: nat)
    requires ExpDefined(n, alpha)
    ensures idx <= n
    ensures IsFirstNearest(RoundedExpRange(xmin, xmax, n, alpha), level, idx)
    ensures level == RoundHalfEven(xmin) ==> idx == 0
    ensures var r := RoundedExpRange(xmin, xmax, n, alpha);
      level == RoundHalfEven(xmax) && (forall j :: 0 <= j < n ==> r[j] != level) ==> idx == n
  {
    var r := RoundedExpRange(xmin, xmax, n, alpha);
    idx := NearestIndex(r, level);
    if level == RoundHalfEven(xmin) {
      NearestOfPresent(r, level, 0, idx);
    }
    if level == RoundHalfEven(xmax) {
      NearestOfPresent(r, level, n, idx);
    }
  }
}

=== FILE: engine.dfy ===
/** The level state and orchestrator of `Brightness/logic.py`: a level is
    turned into an ordered list of driver actions, the actions are run against
    an explicit world (level file, monitor cache, sysfs backlight devices, the
    `xrandr` commands sent so far), and the step, maximum and minimum
    commands are built on top. */
module Engine {
  import opened Common
  import opened Bands
  import opened Monitor
  import opened Backlight
  import opened Gamma
  import Levels

  /** One driver call made by `set_brightness_high_level`. */
  datatype Action =
    | RemoveGamma                     // remove_gamma_correction()
    | SetGamma(index: int, dark: bool) // set_gamma_correction(index, dark)
    | SetHardware(index: int)         // set_hardware_brightness(index)
    | WriteLevel(level: int)          // write_brightness_level(level)

  /** `set_brightness_high_level(level)` as the actions it performs, in order:
      first the gamma driver, then the backlight, and the level is stored
      last. */
  function Plan(level: int): (p: seq<Action>)
    ensures |p| == 3
    ensures p[0].RemoveGamma? || p[0].SetGamma?
    ensures p[1].SetHardware? && p[2] == WriteLevel(level)
    ensures InRange(level) && p[0].SetGamma? ==> 0 <= p[0].index < LevelSizes[0]
    ensures InRange(level) ==> 0 <= p[1].index <= HardwareSteps
  {
    match Classify(level)
    case Hardware =>
      [RemoveGamma, SetHardware(level - LevelSizes[0]), WriteLevel(level)]
    case DarkGamma =>
      [SetGamma(level, true), SetHardware(0), WriteLevel(level)]
    case BrightGamma =>
      [SetGamma(level - LevelSizes[0] - LevelSizes[1], false), SetHardware(LevelSizes[1] - 1), WriteLevel(level)]
  }

  /** The dispatch of each band, as a table of cases. */
  lemma PlanByBand(level: int)
    ensures Classify(level) == Hardware ==>
      Plan(level) == [RemoveGamma, SetHardware(level - 10), WriteLevel(level)]
    ensures Classify(level) == DarkGamma ==>
      Plan(level) == [SetGamma(level, true), SetHardware(0), WriteLevel(level)]
    ensures Classify(level) == BrightGamma ==>
      Plan(level) == [SetGamma(level - 20, false), SetHardware(9), WriteLevel(level)]
  {
  }

  /** The level a plan's gamma and backlight actions stand for, read back
      from the actions alone. */
  function PlanLevel(gamma: Action, hardware: Action): int
    requires gamma.RemoveGamma? || gamma.SetGamma?
    requires hardware.SetHardware?
  {
    match gamma
    case RemoveGamma => BandStart(Hardware) + hardware.index
    case SetGamma(i, dark) => if dark then BandStart(DarkGamma) + i else BandStart(BrightGamma) + i
  }

  /** On the scale, the driver actions determine the level: no two levels
      drive the devices the same way. */
  lemma PlanDetermined(level: int)
    requires InRange(level)
    ensures PlanLevel(Plan(level)[0], Plan(level)[1]) == level
  {
  }

  /** The backlight never goes down as the level goes up, and within a gamma
      band the gamma table index rises with the level. */
  lemma PlanMonotone(l1: int, l2: int)
    requires InRange(l1) && InRange(l2) && l1 < l2
    ensures Plan(l1)[1].index <= Plan(l2)[1].index
    ensures Classify(l1) == Classify(l2) && Plan(l1)[0].SetGamma? ==> Plan(l1)[0].index < Plan(l2)[0].index
  {
  }

  /** Everything the engine reads and writes. */
  datatype World = World(
    levelFile: Option<int>,
    monitorCache: Option<CacheEntry>,
    backlight: Sysfs,
    xrandr: seq<XrandrCall>)

  /** What one invocation observes from outside: the clock and what `xrandr`
      would print. */
  datatype Env = Env(now: real, xrandrOutput: string)

  /** The world after an operation, and the exception it raised, if any. */
  datatype Outcome = Outcome(world: World, fault: Option<Fault>)

  /** Perform one action. */
  function Exec(a: Action, w: World, env: Env): (o: Outcome)
    ensures o.fault.Some? ==> o.world == w
    ensures !a.WriteLevel? ==> o.world.levelFile == w.levelFile
    ensures !a.SetHardware? ==> o.world.backlight == w.backlight
    ensures a.SetHardware? || a.WriteLevel? ==>
      o.world.xrandr == w.xrandr && o.world.monitorCache == w.monitorCache
    ensures a.WriteLevel? ==> o.world.levelFile == Some(a.level) && o.fault.None?
    ensures (a.RemoveGamma? || a.SetGamma?) && o.fault.None? ==>
      |o.world.xrandr| == |w.xrandr| + 1 && o.world.xrandr[..|w.xrandr|] == w.xrandr
  {
    match a
    case RemoveGamma =>
      var e := RemoveGammaCorrection(w.monitorCache, env.now, env.xrandrOutput);
      Outcome(w.(monitorCache := e.cache, xrandr := w.xrandr + [e.call]), None)
    case SetGamma(i, dark) =>
      (match SetGammaCorrection(i, dark, w.monitorCache, env.now, env.xrandrOutput)
       case None => Outcome(w, Some(IndexOutOfRange))
       case Some(e) => Outcome(w.(monitorCache := e.cache, xrandr := w.xrandr + [e.call]), None))
    case SetHardware(i) =>
      var (fs, fault) := SetHardwareBrightness(w.backlight, i);
      Outcome(w.(backlight := fs), fault)
    case WriteLevel(n) =>
      Outcome(w.(levelFile := Levels.WriteLevel(w.levelFile, n)), None)
  }

  /** Perform actions in order; an exception stops the rest. */
  function Run(actions: seq<Action>, w: World, env: Env): (o: Outcome)
    decreases |actions|
  {
    if |actions| == 0 then Outcome(w, None)
    else
      var o1 := Exec(actions[0], w, env);
      if o1.fault.Some? then o1 else Run(actions[1..], o1.world, env)
  }

  /** `set_brightness_high_level(level)`. */
  function ApplyLevel(level: int, w: World, env: Env): Outcome {
    Run(Plan(level), w, env)
  }

  /** The backlight step a level asks for: step 0, which writes raw value 0,
      the lowest setting, in the dark band; the band offset in the hardware
      band; full in the bright band. */
  function HardwareStep(level: int): int {
    match Classify(level)
    case DarkGamma => 0
    case Hardware => Offset(level)
    case BrightGamma => HardwareSteps
  }

  /** The `(gamma, brightness)` a level sends to `xrandr`: gamma 1 and no
      brightness in the hardware band, the dark table's brightness in the dark
      band, the bright table's gamma in the bright band. */
  function GammaCall(level: int): (real, Option<real>)
    requires InRange(level)
  {
    match Classify(level)
    case Hardware => (1.0, None)
    case DarkGamma => (1.0, Some(DarkTable()[Offset(level)]))
    case BrightGamma => (BrightTable()[Offset(level)], Some(1.0))
  }

  /** Applying a level of the scale sends exactly one `xrandr` command, aimed
      at the cached primary monitor and carrying the band's gamma settings;
      then, with a backlight present, writes the level's step to every device
      and stores the level. Without a backlight the `FileNotFoundError`
      escapes after the `xrandr` command, and the level is not stored. */
  lemma ApplyLevelEffect(level: int, w: World, env: Env)
    requires InRange(level)
    ensures var o := ApplyLevel(level, w, env);
      var (name, cache) := CachedPrimary(w.monitorCache, env.now, env.xrandrOutput);
      && |o.world.xrandr| == |w.xrandr| + 1
      && o.world.xrandr[..|w.xrandr|] == w.xrandr
      && o.world.xrandr[|w.xrandr|] == XrandrCall(name, GammaCall(level).0, GammaCall(level).1)
      && o.world.monitorCache == cache
      && (HasBacklight(w.backlight) ==>
            && o.fault.None?
            && o.world.levelFile == Some(level)
            && WrittenToUsable(w.backlight, o.world.backlight, HardwareStep(level)))
      && (!HasBacklight(w.backlight) ==>
            && o.fault == Some(NoBacklight)
            && o.world.levelFile == w.levelFile
            && o.world.backlight == w.backlight)
  {
    var p := Plan(level);
    var w1 := GammaStepEffect(level, w, env);
    RunThree(p, w, env);
    var fs := SetHardwareBrightness(w1.backlight, HardwareStep(level));
    assert w1.backlight == w.backlight;
    HardwareStepInRange(level);
    var o := ApplyLevel(level, w, env);
    assert o.world.xrandr == w1.xrandr;
  }

  /** The first action of a plan on the scale: one `xrandr` command to the
      cached primary monitor with the band's settings, no exception. */
  lemma GammaStepEffect(level: int, w: World, env: Env) returns (w1: World)
    requires InRange(level)
    ensures var (name, cache) := CachedPrimary(w.monitorCache, env.now, env.xrandrOutput);
      w1 == w.(monitorCache := cache, xrandr := w.xrandr + [XrandrCall(name, GammaCall(level).0, GammaCall(level).1)])
    ensures Exec(Plan(level)[0], w, env) == Outcome(w1, None)
  {
    ClassifyInBand(level);
    var (name, cache) := CachedPrimary(w.monitorCache, env.now, env.xrandrOutput);
    w1 := w.(monitorCache := cache, xrandr := w.xrandr + [XrandrCall(name, GammaCall(level).0, GammaCall(level).1)]);
  }

  lemma HardwareStepInRange(level: int)
    requires InRange(level)
    ensures 0 <= HardwareStep(level) <= HardwareSteps
    ensures Plan(level)[1] == SetHardware(HardwareStep(level))
  {
    ClassifyInBand(level);
  }

  /** Three actions run in order, and a failure stops the rest. That a
      failing action changes nothing is `Exec`'s own postcondition. */
  lemma RunThree(p: seq<Action>, w: World, env: Env)
    requires |p| == 3
    ensures var o1 := Exec(p[0], w, env);
      var o2 := Exec(p[1], o1.world, env);
      Run(p, w, env) ==
        if o1.fault.Some? then o1
        else if o2.fault.Some? then o2
        else Exec(p[2], o2.world, env)
  {
    var o1 := Exec(p[0], w, env);
    var o2 := Exec(p[1], o1.world, env);
    assert p[1..][0] == p[1] && p[1..][1..] == [p[2]];
    assert Run([p[2]], o2.world, env) == Exec(p[2], o2.world, env) by {
      assert [p[2]][1..] == [];
    }
  }

  /** The two ends of the bands meet without a gap, and 19 and 20 share a
      setting: both leave the backlight at full and ask `xrandr` for gamma 1,
      level 20 merely adding brightness 1. Likewise the dark band's top, 9,
      stops at brightness 0.91 with the backlight at step 0, where level 10
      switches to gamma 1 at the same step. */
  lemma BandSeams()
    ensures HardwareStep(19) == HardwareStep(20) == HardwareSteps
    ensures GammaCall(19) == (1.0, None) && GammaCall(20) == (1.0, Some(1.0))
    ensures HardwareStep(9) == HardwareStep(10) == 0
    ensures GammaCall(9) == (1.0, Some(0.91)) && GammaCall(10) == (1.0, None)
  {
    var d := DarkTable();
    assert d[9] == 0.1 + 9.0 * 0.09;
  }

  /** The step rule of `change_brightness`: up by one but not past 29, or
      down by one but not below 0. */
  function NextLevel(level: int, increase: bool): int {
    if increase then
      if level + StepSize < NumLevels - 1 then level + StepSize else NumLevels - 1
    else
      if level - StepSize > 0 then level - StepSize else 0
  }

  /** On the scale a step stays on the scale, moves by at most one, and moves
      exactly one unless it is at the end it moves towards. */
  lemma NextLevelOnScale(level: int, increase: bool)
    requires InRange(level)
    ensures InRange(NextLevel(level, increase))
    ensures increase ==> NextLevel(level, increase) == if level == MaxLevel then MaxLevel else level + 1
    ensures !increase ==> NextLevel(level, increase) == if level == 0 then 0 else level - 1
  {
  }

  /** Off the scale the rule is lopsided: stepping towards the scale from
      above jumps straight to 29, while the other direction moves by one and
      stays off the scale. */
  lemma NextLevelOffScale()
    ensures NextLevel(40, true) == 29 && NextLevel(40, false) == 39
    ensures NextLevel(-5, false) == 0 && NextLevel(-5, true) == -4
  {
  }

  /** `k` steps in one direction. */
  function Steps(level: int, increase: bool, k: nat): int {
    if k == 0 then level else NextLevel(Steps(level, increase, k - 1), increase)
  }

  /** Repeated steps saturate: `k` increases from a level of the scale reach
      `min(level + k, 29)`, `k` decreases reach `max(level - k, 0)`. */
  lemma {:induction false} StepsSaturate(level: int, increase: bool, k: nat)
    requires InRange(level)
    ensures increase ==> Steps(level, increase, k) == if level + k < MaxLevel then level + k else MaxLevel
    ensures !increase ==> Steps(level, increase, k) == if level - k > 0 then level - k else 0
  {
    if k > 0 {
      StepsSaturate(level, increase, k - 1);
      NextLevelOnScale(Steps(level, increase, k - 1), increase);
    }
  }

  /** `change_brightness(increase)`: read the level (creating the file if it
      is missing), step it, apply the result. */
  function ChangeBrightness(increase: bool, w: World, env: Env): Outcome {
    var (level, file) := Levels.ReadLevel(w.levelFile);
    ApplyLevel(NextLevel(level, increase), w.(levelFile := file), env)
  }

  /** `set_max_brightness`: the top of the hardware band, no gamma. */
  function SetMaxBrightness(w: World, env: Env): Outcome {
    ApplyLevel(LevelSizes[0] + LevelSizes[1] - 1, w, env)
  }

  /** `set_min_brightness`: the top of the dark band. */
  function SetMinBrightness(w: World, env: Env): Outcome {
    ApplyLevel(LevelSizes[0] - 1, w, env)
  }

  /** With a backlight, maximum stores 19 and drives the backlight fully with
      gamma removed. */
  lemma SetMaxEffect(w: World, env: Env)
    requires HasBacklight(w.backlight)
    ensures var o := SetMaxBrightness(w, env);
      && o.fault.None? && o.world.levelFile == Some(19)
      && WrittenToUsable(w.backlight, o.world.backlight, 9)
      && |o.world.xrandr| == |w.xrandr| + 1
      && o.world.xrandr[|w.xrandr|].gamma == 1.0 && o.world.xrandr[|w.xrandr|].brightness.None?
  {
    assert HardwareStep(19) == 9 && GammaCall(19) == (1.0, None);
    ApplyLevelEffect(19, w, env);
  }

  /** With a backlight, minimum stores 9, keeps the backlight at raw value 0 and dims
      with the last dark-band brightness, 0.91. */
  lemma SetMinEffect(w: World, env: Env)
    requires HasBacklight(w.backlight)
    ensures var o := SetMinBrightness(w, env);
      && o.fault.None? && o.world.levelFile == Some(9)
      && WrittenToUsable(w.backlight, o.world.backlight, 0)
      && |o.world.xrandr| == |w.xrandr| + 1
      && o.world.xrandr[|w.xrandr|].gamma == 1.0 && o.world.xrandr[|w.xrandr|].brightness == Some(0.91)
  {
    var d := DarkTable();
    assert d[9] == 0.1 + 9.0 * 0.09;
    assert HardwareStep(9) == 0 && GammaCall(9) == (1.0, Some(0.91));
    ApplyLevelEffect(9, w, env);
  }

  /** With a backlight, a step from a stored level of the scale stores the
      stepped level; with no level file it steps from 19. */
  lemma ChangeBrightnessEffect(increase: bool, w: World, env: Env)
    requires HasBacklight(w.backlight)
    requires w.levelFile.None? || InRange(w.levelFile.value)
    ensures var o := ChangeBrightness(increase, w, env);
      var from := if w.levelFile.Some? then w.levelFile.value else DefaultLevel;
      o.fault.None? && o.world.levelFile == Some(NextLevel(from, increase))
  {
    var (level, file) := Levels.ReadLevel(w.levelFile);
    NextLevelOnScale(level, increase);
    ApplyLevelEffect(NextLevel(level, increase), w.(levelFile := file), env);
  }

  /** Without a backlight a step fails, yet a missing level file has been
      created holding 19 by the time it fails. */
  lemma ChangeBrightnessNoBacklight(increase: bool, w: World, env: Env)
    requires !HasBacklight(w.backlight)
    requires w.levelFile.None? || InRange(w.levelFile.value)
    ensures var o := ChangeBrightness(increase, w, env);
      o.fault == Some(NoBacklight) && o.world.levelFile == Some(Levels.ReadLevel(w.levelFile).0)
  {
    var (level, file) := Levels.ReadLevel(w.levelFile);
    NextLevelOnScale(level, increase);
    ApplyLevelEffect(NextLevel(level, increase), w.(levelFile := file), env);
  }

  /** A stored level is not checked: from 35 a decrease asks for level 34,
      whose bright-band offset 14 is past the gamma table, and the
      `IndexError` leaves everything as it was; an increase clamps to 29 and
      recovers. */
  lemma CorruptLevelDecrease(w: World, env: Env)
    requires w.levelFile == Some(35)
    ensures ChangeBrightness(false, w, env) == Outcome(w, Some(IndexOutOfRange))
    ensures NextLevel(35, true) == 29
  {
    var p := Plan(34);
    assert p[0] == SetGamma(14, false);
  }
}

=== FILE: gamma.dfy ===
/** The gamma driver of `Brightness/logic.py`: software dimming and
    brightening through `xrandr`, aimed at the primary output. Only the
    parameters of each `xrandr` invocation are modelled; what `xrandr` does
    with them is outside the model. */
module Gamma {
  import opened Common
  import opened Curves
  import opened Monitor
  import Bands

  /** `xrandr --output <output> --gamma <gamma> [--brightness <brightness>]`. */
  datatype XrandrCall = XrandrCall(output: string, gamma: real, brightness: Option<real>)

  /** Brightness multipliers of the dark band: 0.1 up to 1.0 in ten steps. */
  function DarkTable(): (t: seq<real>)
    ensures |t| == Bands.LevelSizes[0] + 1
  {
    LinearRange(0.1, 1.0, Bands.LevelSizes[0])
  }

  /** Gamma values of the bright band: 1.0 up to 2.0 in ten steps. */
  function BrightTable(): (t: seq<real>)
    ensures |t| == Bands.LevelSizes[2] + 1
  {
    LinearRange(1.0, 2.0, Bands.LevelSizes[2])
  }

  /** The `(gamma, brightness)` pair `set_gamma_correction(idx, dark)` passes
      to `xrandr`; `None` is the `IndexError` of an index outside the table.
      The dark band varies brightness at gamma 1, the bright band varies gamma
      at brightness 1. */
  function GammaSettings(idx: int, dark: bool): (r: Option<(real, real)>)
    ensures r.Some? <==> -11 <= idx < 11
    ensures r.Some? && dark ==> r.value.0 == 1.0 && r.value.1 in DarkTable()
    ensures r.Some? && !dark ==> r.value.1 == 1.0 && r.value.0 in BrightTable()
  {
    if dark then
      match PyIndex(DarkTable(), idx)
      case None => None
      case Some(b) => Some((1.0, b))
    else
      match PyIndex(BrightTable(), idx)
      case None => None
      case Some(g) => Some((g, 1.0))
  }

  /** Within a band offset `0 .. 9` the dark band dims from 0.1 towards 1.0
      and the bright band raises gamma from 1.0 towards 2.0, each strictly
      increasing with the offset and never reaching the top entry. */
  lemma GammaSettingsInBand(i: int, j: int)
    requires 0 <= i < j < Bands.LevelSizes[0]
    ensures var d1, d2 := GammaSettings(i, true).value.1, GammaSettings(j, true).value.1;
      0.1 <= d1 < d2 < 1.0
    ensures var g1, g2 := GammaSettings(i, false).value.0, GammaSettings(j, false).value.0;
      1.0 <= g1 < g2 < 2.0
    ensures GammaSettings(0, true).value.1 == 0.1 && GammaSettings(0, false).value.0 == 1.0
  {
    var d := DarkTable();
    var b := BrightTable();
    assert d[i] == 0.1 + i as real * 0.09 && d[j] == 0.1 + j as real * 0.09;
    assert b[i] == 1.0 + i as real * 0.1 && b[j] == 1.0 + j as real * 0.1;
  }

  /** Python's negative indexing: offset -1 of the dark band reads the last
      table entry, full brightness. */
  lemma DarkNegativeIndexWraps()
    ensures GammaSettings(-1, true) == Some((1.0, 1.0))
    ensures GammaSettings(-12, true).None?
  {
  }

  /** The effect of one gamma operation: the command sent and the monitor
      cache left behind. */
  datatype GammaEffect = GammaEffect(call: XrandrCall, cache: Option<CacheEntry>)

  /** `set_gamma_correction(idx, dark)`: the table lookup comes first, so an
      `IndexError` happens before the monitor is resolved and leaves the cache
      alone (`None`). */
  function SetGammaCorrection(idx: int, dark: bool, cache: Option<CacheEntry>, now: real, xrandrOutput: string)
    : (r: Option<GammaEffect>)
    ensures r.Some? <==> GammaSettings(idx, dark).Some?
    ensures r.Some? ==> r.value.call.brightness.Some?
    ensures r.Some? ==> (r.value.call.gamma, r.value.call.brightness.value) == GammaSettings(idx, dark).value
    ensures r.Some? ==> (r.value.call.output, r.value.cache) == CachedPrimary(cache, now, xrandrOutput)
  {
    match GammaSettings(idx, dark)
    case None => None
    case Some((g, b)) =>
      var (output, cache') := CachedPrimary(cache, now, xrandrOutput);
      Some(GammaEffect(XrandrCall(output, g, Some(b)), cache'))
  }

  /** `remove_gamma_correction`: gamma back to 1.0 on the primary output. No
      brightness is passed, so a dimming set earlier is not undone by this
      call's parameters. */
  function RemoveGammaCorrection(cache: Option<CacheEntry>, now: real, xrandrOutput: string)
    : (r: GammaEffect)
    ensures r.call.gamma == 1.0 && r.call.brightness.None?
    ensures (r.call.output, r.cache) == CachedPrimary(cache, now, xrandrOutput)
  {
    var (output, cache') := CachedPrimary(cache, now, xrandrOutput);
    GammaEffect(XrandrCall(output, 1.0, None), cache')
  }
}

=== FILE: levels.dfy ===
/** The persisted level of `Brightness/logic.py`: a single integer in the file
    `~/.local/share/brightness_level`, modelled as `None` (no file) or the
    integer it holds. Parsing the file's text is not modelled. */
module Levels {
  import opened Common
  import Bands

  /** `write_brightness_level(level)`: the file is truncated and rewritten, so
      whatever it held before is gone. */
  function WriteLevel(file: Option<int>, level: int): (file': Option<int>)
    ensures file'.Some?
  {
    Some(level)
  }

  /** `read_brightness_level`: the level read and the file afterwards. A
      missing file yields the top of the hardware band and is created holding
      it. The value read is not range-checked. */
  function ReadLevel(file: Option<int>): (res: (int, Option<int>))
    ensures res.1 == Some(res.0)
    ensures file.Some? ==> res.1 == file
    ensures file.None? ==> res.0 == Bands.DefaultLevel
  {
    match file
    case Some(level) => (level, file)
    case None => (Bands.DefaultLevel, WriteLevel(file, Bands.DefaultLevel))
  }

  /** Reading without a file gives 19 and leaves a file holding 19. */
  lemma ReadMissing()
    ensures ReadLevel(None) == (19, Some(19))
  {
  }

  /** A write followed by a read gives back the value written, and the read
      leaves the file as the write made it. */
  lemma WriteThenRead(file: Option<int>, level: int)
    ensures ReadLevel(WriteLevel(file, level)) == (level, WriteLevel(file, level))
  {
  }

  /** A second write replaces the first. */
  lemma SecondWriteWins(file: Option<int>, first: int, second: int)
    ensures ReadLevel(WriteLevel(WriteLevel(file, first), second)).0 == second
  {
  }

  /** Reading is idempotent: reading again reads the same level and changes
      nothing more. */
  lemma ReadTwice(file: Option<int>)
    ensures ReadLevel(ReadLevel(file).1) == ReadLevel(file)
  {
  }
}

=== FILE: monitor.dfy ===
/** The monitor resolver of `Brightness/logic.py`: the name of the primary
    output is taken from the text `xrandr` prints, and kept in a cache file
    for a day. The `xrandr` output, the cache file and the clock are explicit
    inputs here. */
module Monitor {
  import opened Common
  import opened Text

  const PrimaryMarker: string := "primary"

  /** Cache lifetime in seconds, `24 * 3600`. */
  const CacheLifetime: real := 86400.0

  /** Index of the first line holding the marker, or `|lines|` if none does. */
  function FirstMarked(lines: seq<string>): (k: nat)
    ensures k <= |lines|
    ensures forall j :: 0 <= j < k ==> !Contains(lines[j], PrimaryMarker)
    ensures k < |lines| ==> Contains(lines[k], PrimaryMarker)
  {
    if |lines| == 0 then 0
    else if Contains(lines[0], PrimaryMarker) then 0
    else 1 + FirstMarked(lines[1..])
  }

  /** `get_primary_monitor` applied to the text `xrandr` printed: the first
      word of the first line that mentions "primary", or "" when no line
      does. */
  function PrimaryMonitor(xrandrOutput: string): (name: string)
    ensures NoSpace(name)
    ensures var lines := Lines(xrandrOutput);
      name == [] <==> forall j :: 0 <= j < |lines| ==> !Contains(lines[j], PrimaryMarker)
    ensures var lines := Lines(xrandrOutput);
      name != [] ==> exists j :: (
        && 0 <= j < |lines|
        && Contains(lines[j], PrimaryMarker)
        && (forall i :: 0 <= i < j ==> !Contains(lines[i], PrimaryMarker))
        && name == FirstWord(lines[j]))
  {
    var lines := Lines(xrandrOutput);
    var k := FirstMarked(lines);
    if k < |lines| then
      ContainsNotAllSpace(lines[k], PrimaryMarker, 0);
      FirstWord(lines[k])
    else []
  }

  /** The cache file `/tmp/primary_monitor`: its text and its modification
      time. */
  datatype CacheEntry = CacheEntry(contents: string, mtime: real)

  /** A cache file younger than a day at time `now` (a modification time in
      the future also counts as young). */
  predicate Fresh(cache: Option<CacheEntry>, now: real) {
    cache.Some? && now - cache.value.mtime < CacheLifetime
  }

  /** `get_primary_monitor_cached` at time `now`: the name it returns and the
      cache file it leaves behind. */
  function CachedPrimary(cache: Option<CacheEntry>, now: real, xrandrOutput: string)
    : (res: (string, Option<CacheEntry>))
    ensures Fresh(res.1, now)
    ensures res.0 == Strip(res.1.value.contents)
  {
    if Fresh(cache, now) then
      (Strip(cache.value.contents), cache)
    else
      var name := PrimaryMonitor(xrandrOutput);
      StripNoSpace(name);
      (name, Some(CacheEntry(name, now)))
  }

  /** A young cache is answered from the file: `xrandr` is not consulted and
      the file is left as it was. */
  lemma CacheHit(cache: Option<CacheEntry>, now: real, out1: string, out2: string)
    requires Fresh(cache, now)
    ensures CachedPrimary(cache, now, out1) == CachedPrimary(cache, now, out2)
    ensures CachedPrimary(cache, now, out1).1 == cache
    ensures CachedPrimary(cache, now, out1).0 == Strip(cache.value.contents)
  {
  }

  /** A missing or day-old cache is re-resolved from `xrandr` and overwritten
      with the new name, stamped `now`. */
  lemma CacheMiss(cache: Option<CacheEntry>, now: real, out: string)
    requires !Fresh(cache, now)
    ensures CachedPrimary(cache, now, out).0 == PrimaryMonitor(out)
    ensures CachedPrimary(cache, now, out).1 == Some(CacheEntry(PrimaryMonitor(out), now))
  {
  }

  /** Resolving once and asking again within a day gives the same name,
      whatever `xrandr` would print by then. */
  lemma CacheRoundTrip(cache: Option<CacheEntry>, t1: real, t2: real, out1: string, out2: string)
    requires !Fresh(cache, t1)
    requires t2 - t1 < CacheLifetime
    ensures var (name1, cache1) := CachedPrimary(cache, t1, out1);
      CachedPrimary(cache1, t2, out2) == (name1, cache1)
  {
    var name := PrimaryMonitor(out1);
    StripNoSpace(name);
  }

  /** The name found in a sample of `xrandr` output. */
  lemma PrimaryMonitorExample()
    ensures PrimaryMonitor(SampleLine0 + "\n" + SampleLine1) == "eDP-1"
  {
    ExampleLines();
    ExampleUnmarked();
    ExampleMarked();
    var lines := [SampleLine0, SampleLine1];
    assert lines[1..] == [SampleLine1];
    assert FirstMarked(lines[1..]) == 0;
    assert FirstMarked(lines) == 1;
  }

  const SampleLine0: string := "HDMI-1 disconnected"
  const SampleLine1: string := "eDP-1 connected " + PrimaryMarker + " 1920x1080+0+0"

  lemma ExampleLines()
    ensures Lines(SampleLine0 + "\n" + SampleLine1) == [SampleLine0, SampleLine1]
  {
    assert SampleLine0 + "\n" + SampleLine1 == Join([SampleLine0, SampleLine1], '\n');
    assert '\n' !in SampleLine0;
    assert '\n' !in SampleLine1;
    JoinSplit([SampleLine0, SampleLine1], '\n');
  }

  lemma ExampleUnmarked()
    ensures !Contains(SampleLine0, PrimaryMarker)
  {
    var l0 := SampleLine0;
    forall i | 0 <= i <= |l0| - |PrimaryMarker|
      ensures !InfixAt(l0, PrimaryMarker, i)
    {
      assert l0[i] != 'p';
    }
  }

  lemma ExampleMarked()
    ensures Contains(SampleLine1, PrimaryMarker)
    ensures FirstWord(SampleLine1) == "eDP-1"
  {
    var l1 := SampleLine1;
    var a := "eDP-1 connected ";
    assert l1 == a + PrimaryMarker + " 1920x1080+0+0";
    assert l1[16..23] == PrimaryMarker;
    assert InfixAt(l1, PrimaryMarker, 16);
    assert LeadingSpace(l1) == 0;
    assert WordEnd(l1, 5) == 5;
    assert WordEnd(l1, 4) == 5;
    assert WordEnd(l1, 3) == 5;
    assert WordEnd(l1, 2) == 5;
    assert WordEnd(l1, 1) == 5;
    assert WordEnd(l1, 0) == 5;
    assert l1[0..5] == "eDP-1";
  }
}

=== FILE: text.dfy ===
/** The few pieces of Python string handling the monitor resolver relies on:
    `str.split("\n")`, `str.split()[0]`, `str.strip()` and the `in` test for
    substrings. */
module Text {

  /** Python's `str.isspace` for one code point: exactly the characters that
      `str.split()` and `str.strip()` treat as whitespace. */
  predicate IsSpace(c: char) {
    var k := c as int;
    || 0x09 <= k <= 0x0D
    || 0x1C <= k <= 0x20
    || k == 0x85 || k == 0xA0 || k == 0x1680
    || 0x2000 <= k <= 0x200A
    || k == 0x2028 || k == 0x2029 || k == 0x202F || k == 0x205F || k == 0x3000
  }

  predicate NoSpace(s: string) {
    forall i :: 0 <= i < |s| ==> !IsSpace(s[i])
  }

  predicate AllSpace(s: string) {
    forall i :: 0 <= i < |s| ==> IsSpace(s[i])
  }

  /** `pat` occurs in `s` starting at position `i`. */
  predicate InfixAt(s: string, pat: string, i: int) {
    0 <= i <= |s| - |pat| && s[i..i + |pat|] == pat
  }

  /** Python's `pat in s`. The bound on `i` repeats the one in `InfixAt` so
      that the quantifier ranges over a finite set and compiles. */
  predicate Contains(s: string, pat: string) {
    exists i :: 0 <= i <= |s| - |pat| && InfixAt(s, pat, i)
  }

  /** Number of whitespace characters at the front of `s`. */
  function LeadingSpace(s: string): (k: nat)
    ensures k <= |s|
    ensures AllSpace(s[..k])
    ensures k < |s| ==> !IsSpace(s[k])
  {
    if |s| == 0 || !IsSpace(s[0]) then 0
    else
      var k' := LeadingSpace(s[1..]);
      assert s[..k' + 1] == [s[0]] + s[1..][..k'];
      k' + 1
  }

  /** Number of whitespace characters at the end of `s`. */
  function TrailingSpace(s: string): (k: nat)
    ensures k <= |s|
    ensures AllSpace(s[|s| - k..])
    ensures k < |s| ==> !IsSpace(s[|s| - k - 1])
  {
    if |s| == 0 || !IsSpace(s[|s| - 1]) then 0
    else
      var init := s[..|s| - 1];
      var k' := TrailingSpace(init);
      assert s[|s| - (k' + 1)..] == init[|init| - k'..] + [s[|s| - 1]];
      k' + 1
  }

  /** End of the run of non-whitespace characters that starts at `i`. */
  function WordEnd(s: string, i: nat): (e: nat)
    requires i <= |s|
    ensures i <= e <= |s|
    ensures NoSpace(s[i..e])
    ensures e < |s| ==> IsSpace(s[e])
    decreases |s| - i
  {
    if i == |s| || IsSpace(s[i]) then i else WordEnd(s, i + 1)
  }

  /** `w` sits at position `i` of `s` as its first whitespace-delimited word:
      only whitespace before it, whitespace or the end after it. */
  ghost predicate WordAt(s: string, i: int, w: string) {
    && 0 <= i <= |s| - |w|
    && AllSpace(s[..i])
    && s[i..i + |w|] == w
    && (i + |w| == |s| || IsSpace(s[i + |w|]))
  }

  /** Python's `s.split()[0]`, and the empty string when `s` holds no word
      (where Python would raise; callers only use it on lines that hold one). */
  function FirstWord(s: string): (w: string)
    ensures NoSpace(w)
    ensures w == [] <==> AllSpace(s)
    ensures w != [] ==> WordAt(s, LeadingSpace(s), w)
  {
    var i := LeadingSpace(s);
    var w := s[i..WordEnd(s, i)];
    assert i < |s| ==> w[0] == s[i];
    w
  }

  /** Python's `s.strip()`. */
  function Strip(s: string): (r: string)
    ensures r == [] || (!IsSpace(r[0]) && !IsSpace(r[|r| - 1]))
    ensures r == [] <==> AllSpace(s)
    ensures r != [] ==> var i := LeadingSpace(s);
      i + |r| <= |s| && s[i..i + |r|] == r && AllSpace(s[i + |r|..])
  {
    var a := LeadingSpace(s);
    if a == |s| then
      assert s[..a] == s;
      []
    else
      var b := |s| - TrailingSpace(s);
      assert a < b;
      s[a..b]
  }

  /** Stripping a string that has no whitespace at all changes nothing. */
  lemma StripNoSpace(s: string)
    requires NoSpace(s)
    ensures Strip(s) == s
  {
    if |s| > 0 {
      assert LeadingSpace(s) == 0;
      assert TrailingSpace(s) == 0;
      assert s[0..|s|] == s;
    }
  }

  /** Python's `s.split(sep)` for a single-character separator. */
  function Split(s: string, sep: char): (parts: seq<string>)
    ensures |parts| >= 1
    decreases |s|
  {
    if |s| == 0 then [[]]
    else
      var rest := Split(s[1..], sep);
      if s[0] == sep then [[]] + rest
      else [[s[0]] + rest[0]] + rest[1..]
  }

  /** Python's `sep.join(parts)`, the inverse of `Split`. */
  function Join(parts: seq<string>, sep: char): string
    requires |parts| >= 1
  {
    if |parts| == 1 then parts[0] else parts[0] + [sep] + Join(parts[1..], sep)
  }

  /** Splitting loses nothing (joining back gives the input) and every piece
      is free of the separator. */
  lemma {:induction false} SplitJoin(s: string, sep: char)
    ensures Join(Split(s, sep), sep) == s
    ensures forall k :: 0 <= k < |Split(s, sep)| ==> sep !in Split(s, sep)[k]
    decreases |s|
  {
    if |s| > 0 {
      var rest := Split(s[1..], sep);
      SplitJoin(s[1..], sep);
      if s[0] == sep {
        assert Split(s, sep) == [[]] + rest;
        assert ([[]] + rest)[1..] == rest;
      } else {
        var parts := Split(s, sep);
        assert parts == [[s[0]] + rest[0]] + rest[1..];
        assert parts[1..] == rest[1..];
        if |rest| == 1 {
          assert Join(parts, sep) == [s[0]] + rest[0];
        } else {
          assert Join(rest, sep) == rest[0] + [sep] + Join(rest[1..], sep);
        }
        forall k | 0 <= k < |parts|
          ensures sep !in parts[k]
        {
          if k > 0 {
            assert parts[k] == rest[k];
          }
        }
      }
    }
  }

  /** Splitting a string that starts with a separator-free piece `p`. */
  lemma {:induction false} SplitPrefix(p: string, t: string, sep: char)
    requires sep !in p
    ensures Split(p + t, sep) == [p + Split(t, sep)[0]] + Split(t, sep)[1..]
    decreases |p|
  {
    if |p| > 0 {
      SplitPrefix(p[1..], t, sep);
      assert (p + t)[1..] == p[1..] + t;
      assert [p[0]] + (p[1..] + Split(t, sep)[0]) == p + Split(t, sep)[0];
    } else {
      var parts := Split(t, sep);
      assert p + t == t;
      assert p + parts[0] == parts[0];
      assert parts == [parts[0]] + parts[1..];
    }
  }

  /** Joining separator-free pieces and splitting again gives the pieces back. */
  lemma {:induction false} JoinSplit(parts: seq<string>, sep: char)
    requires |parts| >= 1
    requires forall k :: 0 <= k < |parts| ==> sep !in parts[k]
    ensures Split(Join(parts, sep), sep) == parts
  {
    if |parts| == 1 {
      SplitPrefix(parts[0], [], sep);
      assert parts[0] + [] == parts[0];
    } else {
      var tail := Join(parts[1..], sep);
      JoinSplit(parts[1..], sep);
      SplitPrefix(parts[0], [sep] + tail, sep);
      assert parts[0] + [sep] + tail == parts[0] + ([sep] + tail);
      assert ([sep] + tail)[1..] == tail;
      assert Split([sep] + tail, sep) == [[]] + parts[1..];
      assert parts[0] + [] == parts[0];
    }
  }

  /** Python's `s.split("\n")`. */
  function Lines(s: string): (lines: seq<string>)
    ensures |lines| >= 1
  {
    Split(s, '\n')
  }

  /** A string that contains a pattern with a non-whitespace character is not
      all whitespace, so its first word is not empty. */
  lemma ContainsNotAllSpace(s: string, pat: string, k: nat)
    requires Contains(s, pat)
    requires k < |pat| && !IsSpace(pat[k])
    ensures !AllSpace(s)
  {
    var i :| 0 <= i <= |s| - |pat| && InfixAt(s, pat, i);
    assert s[i + k] == pat[k];
  }
}
